=== FILE: README.md ===
# Entry page session establishment, modelled in Dafny

This project models the entry page of a multiplayer party game. On this page a player
chooses to create a game or to join one, types a display name, picks one of eight
avatars, and (for a join) types a game code. A code can also come
pre-filled from an invite link (`?join=CODE`). The player then submits the form.
The page calls the session service; on success it commits the returned session to
the application's session store and navigates to the waiting room.

The page's local state is one immutable record, `EntryPage.State`: mode, display name,
game code, avatar id, loading flag and error message. Two more fields record the page's
effects on the world: the session it committed and the route it navigated to. A last
field, `nameEdited`, is the browser's side of the name input: whether its value was last
changed by the user's own typing since the form was shown. Every
user or service event is a pure transition on that record. Each asynchronous handler is
split at its `await` into two events:

- `Submit` runs the handler up to the service call and emits the outbound `Call`.
- A later `Resolve(call, outcome)` runs the rest, whether the call succeeds, throws an
  `Error`, or throws anything else.

`EntryPage.Available` says which events the rendered page offers in a state: the mode
buttons only before a mode is chosen, the code input only on the join form, the submit
button only while it is enabled. An event the page does not offer changes nothing.
`EntryPage.Run` folds a sequence of events and returns the final state and the calls
made.

Modules:

- `Wrappers` holds `Option`.
- `Text` holds upper-casing, and the cap an input's `maxLength` puts on an edit.
- `EntryPage` holds the state, the events, the transitions, `Step` and `Run`.
- `EntryProps` holds the properties that relate several events, the double-submission
  finding, and the expected scenarios.

The submit handlers exist in two versions, selected by `EntryPage.Handlers`. `AsWritten`
follows the source. `Corrected` fixes the two findings: its join handler sets `loading`
true, as the create handler does, and it refuses a name shorter than three characters
even when the browser does not flag it. Every other transition is shared. Every
invariant and scenario below is proved for both versions. See "## Findings".

Where the intended behaviour of the page and its code disagree, the model follows the
code:

- A submission is meant to set `loading` until its call settles; the join handler
  leaves it false.
- A game code is meant to have exactly six characters; the page submits any non-empty
  typed code of up to six characters, and an invite-link code of any length.
- A failed call is meant always to show a message; an `Error` with an empty message
  leaves `error` empty, and the banner (line 171) is then not shown at all.
- A display name is meant to have at least three characters. The browser checks
  `minLength` (line 119) only on a value the user typed into the input now shown. The
  form is a new element each time a mode is chosen (the early return at lines 66-93), and
  the page writes the stored name into its new input. So after typing a short name, going
  back and choosing a mode again, the short name is submitted.
- The display name is not trimmed.

## Model

| member | source | states |
|---|---|---|
| Text.Upper | frontend/src/pages/EntryPage.tsx:139 | upper-casing keeps the length, maps each character to its upper-case form, and leaves no lower-case letter |
| Text.UpperFixedPoint | frontend/src/pages/EntryPage.tsx:139 | a code is left unchanged by upper-casing exactly when it is already upper-case |
| Text.UpperIdempotent | frontend/src/pages/EntryPage.tsx:30 | upper-casing an already upper-cased code changes nothing |
| Text.Cap | frontend/src/pages/EntryPage.tsx:119-121 | an input with `maxLength` n holds a prefix of what was typed: all of it when it fits, otherwise exactly n characters |
| Text.CapUpperCommute | frontend/src/pages/EntryPage.tsx:139-141 | cutting the code to six characters and upper-casing it give the same result in either order |
| EntryPage.Initial | frontend/src/pages/EntryPage.tsx:15-20 | the page mounts with no mode, empty name and code, avatar "1", not loading, no error, nothing committed; this state satisfies the invariant |
| EntryPage.ResolveInvite | frontend/src/pages/EntryPage.tsx:26-32 | a non-empty `join` parameter selects join mode and stores its upper-cased value at its full length; name, avatar and status are kept; an absent or empty parameter changes nothing |
| EntryPage.SelectMode | frontend/src/pages/EntryPage.tsx:75-83 | a mode button sets the mode and keeps the form fields and status |
| EntryPage.GoBack | frontend/src/pages/EntryPage.tsx:66-99 | back clears the mode and keeps name, code, avatar, loading, error, session and route; the form and its name input are unmounted, so no typed name remains |
| EntryPage.SetName | frontend/src/pages/EntryPage.tsx:116-121 | a name edit stores at most 12 characters, a prefix of what was typed; typing of 12 characters or fewer is stored verbatim, longer typing keeps its first 12 characters; the name now counts as typed; nothing else changes |
| EntryPage.SetCode | frontend/src/pages/EntryPage.tsx:138-142 | a code edit stores the upper-cased first six characters typed; the stored code is upper-case and at most six long; nothing else changes |
| EntryPage.SelectAvatar | frontend/src/pages/EntryPage.tsx:153-157 | picking one of the eight ids makes it the avatar and touches no other field |
| EntryPage.HandleCreate | frontend/src/pages/EntryPage.tsx:34-40 | create clears the error, sets loading, and calls create with the current name and avatar |
| EntryPage.HandleJoin | frontend/src/pages/EntryPage.tsx:50-56 | join clears the error and calls join with name, avatar and code; as written loading stays false, and the corrected handler sets it |
| EntryPage.Dispatch | frontend/src/pages/EntryPage.tsx:109 | the submit handler is the current mode's: create mode makes a create call and sets loading, join mode makes a join call carrying the code and leaves loading false as written (true when corrected) |
| EntryPage.FailureMessage | frontend/src/pages/EntryPage.tsx:43-60 | an `Error` contributes its message verbatim, even an empty one; any other failure gives "Failed to create game" or "Failed to join game" by the handler that made the call |
| EntryPage.Settle | frontend/src/pages/EntryPage.tsx:41-63 | success commits the returned session and navigates to "/waiting"; failure sets the message and leaves session and route as they were; loading is false in every outcome; the form is kept; the invariant is kept |
| EntryPage.Step | frontend/src/pages/EntryPage.tsx:66-184 | an event the page does not offer changes nothing; a call goes out exactly when submit is pressed while enabled, and it is the call and state of the current mode's handler; every event keeps the invariant |
| EntryPage.Run | frontend/src/pages/EntryPage.tsx:13-64 | along any sequence of events the invariant holds, and there are never more calls than submits |
| EntryProps.CodeStaysUpper | frontend/src/pages/EntryPage.tsx:139 | an upper-case code stays upper-case under any sequence of events |
| EntryProps.AvatarStaysListed | frontend/src/pages/EntryPage.tsx:153-157 | the avatar stays one of the eight ids under any sequence of events |
| EntryProps.ReachableKeepsInv | frontend/src/pages/EntryPage.tsx:15-20 | every state reachable from mount has an upper-case code, a listed avatar and a name of at most 12 characters; it has committed a session exactly when it navigated, and only to "/waiting"; with no form shown, no name counts as typed |
| EntryProps.InviteIdempotent | frontend/src/pages/EntryPage.tsx:26-32 | re-running the invite-link effect with the same parameter changes nothing further |
| EntryProps.LongInviteCodeIsSubmitted | frontend/src/pages/EntryPage.tsx:27-30 | an invite code longer than six characters is upper-cased but not cut, and a submit sends it to the join call at full length |
| EntryProps.BackThenChooseRestores | frontend/src/pages/EntryPage.tsx:66-99 | back followed by a mode choice equals choosing that mode directly, and going back and re-choosing the same mode restores the state, in every field except that the new form holds no typed name |
| EntryProps.ExactlyOneAvatarSelected | frontend/src/pages/EntryPage.tsx:153-162 | the eight ids are distinct, so exactly one avatar button shows as selected |
| EntryProps.SubmitGate | frontend/src/pages/EntryPage.tsx:109-180 | a submit makes a call if and only if a mode is set, nothing is loading, the name has 1 to 12 characters, a typed name has at least 3 (with the corrected handlers, every name), and in join mode the code is non-empty; with the corrected handlers this is exactly "3 to 12 characters"; otherwise nothing changes |
| EntryProps.BadNameNeverCalls | frontend/src/pages/EntryPage.tsx:119-120 | with the corrected handlers, while the name is too short or too long and is not edited, no sequence of events makes a call |
| EntryProps.RemountedShortNameSubmitted | frontend/src/pages/EntryPage.tsx:66-121 | as written, a typed one- or two-character name is held back, but after back and the same mode choice it is sent in a create call; the corrected handlers send nothing |
| EntryProps.NoCommitWithoutSuccess | frontend/src/pages/EntryPage.tsx:41-63 | without a successful settlement, session and route never change |
| EntryProps.IdleAfterSettle | frontend/src/pages/EntryPage.tsx:45-63 | after any history, the page is not loading once a call settles |
| EntryProps.LoadingBlocksCalls | frontend/src/pages/EntryPage.tsx:180 | while loading, no sequence of events without a settlement makes a call or clears the flag |
| EntryProps.AsWrittenJoinSubmitsTwice | frontend/src/pages/EntryPage.tsx:53 | as written, a join submit leaves loading false and submit enabled, so two presses send two identical join calls |
| EntryProps.CreateSubmitsOnce | frontend/src/pages/EntryPage.tsx:37 | two presses of submit in create mode send exactly one create call |
| EntryProps.CorrectedSubmitsAtMostOnce | frontend/src/pages/EntryPage.tsx:50-53 | with the corrected join handler, at most one call goes out between settlements, and none while already loading |
| EntryProps.InviteScenario | frontend/src/pages/EntryPage.tsx:30 | the invite link `?join=abc123` opens the join form with code "ABC123" |
| EntryProps.CreateSuccessScenario | frontend/src/pages/EntryPage.tsx:34-47 | create with a valid name and avatar, then success: one create call, session committed, navigated to "/waiting", not loading, no error |
| EntryProps.JoinRejectedScenario | frontend/src/pages/EntryPage.tsx:50-63 | join with a valid name and any non-empty upper-case code of up to six characters, then an `Error`: one join call, its message shown verbatim, not loading, nothing committed |
| EntryProps.FallbackScenario | frontend/src/pages/EntryPage.tsx:44-60 | a failure that is not an `Error` shows "Failed to create game" when the create handler made the call and "Failed to join game" when the join handler did; never an empty message |
| EntryProps.LoadingWithoutModeReachable | frontend/src/pages/EntryPage.tsx:99 | create with a valid name, submit, then back reaches a state that is loading with no mode chosen: the mode buttons are shown while a create call is still out |

## Findings

| source | as written | input that shows it | evidently intended | confidence | as-written member | corrected member |
|---|---|---|---|---|---|---|
| frontend/src/pages/EntryPage.tsx:53 | the join handler calls `setLoading(false)` before awaiting the service: a join submission never sets `loading`, so the `disabled={loading}` guard does not block a second join press while the first call is out | join form with a valid name and code; press submit twice before the first call settles: two join calls go out | `setLoading(true)`, as in the create handler, so a second press is blocked until the call settles | high; not executed | EntryProps.AsWrittenJoinSubmitsTwice | EntryProps.CorrectedSubmitsAtMostOnce |
| frontend/src/pages/EntryPage.tsx:119 | the three-character minimum rests on `minLength`, which the browser checks only on a value the user typed into the input now shown; after going back and choosing a mode, the new input holds the stored name without flagging it | choose create, type "Al", go back, choose create again, submit: a create call with "Al" goes out | no name shorter than three characters is submitted, whatever the name's history | medium; not executed | EntryProps.RemountedShortNameSubmitted | EntryProps.BadNameNeverCalls |

The corrected join handler is `EntryPage.HandleJoin` with `Corrected`; the corrected name
check is the `Corrected` case of `EntryPage.SubmitEnabled`. `Step`, `Run` and the
lemmas about runs take the handler version as a parameter and hold for both versions.
`FallbackScenario`, `InviteIdempotent` and `ExactlyOneAvatarSelected` take no handler
version: they are about `Settle`, `ResolveInvite` and the avatar list, which do not
depend on it, so they hold for both versions too.

## Left out

- Rendering, styling, the emoji glyph per avatar (line 165) and the "pre-filled from invite link" label (line 130): presentation only.
- React scheduling: state-update batching and re-runs of the effect are not modelled. The invite-link effect is one explicit event, which may occur in any state.
- `createSession`, `joinGame` and the session store are not part of this model. A call's outcome is an input to `Resolve`. The store is the `session` field, which holds what this page committed and starts empty.
- Concurrency and network behaviour: a call and its settlement are separate, sequential events. Nothing ties a `Resolve` to an earlier `Submit`, so any settlement may happen at any time. This over-approximates what the page can see.
- Navigation does not unmount the page in the model. Events after navigation are still applied to the record.
- `e.preventDefault()` and the browser's form submission machinery are left out. Constraint validation is reduced to the conditions in `EntryPage.SubmitEnabled`.
- Whether the code input's value was typed is not tracked. Its only length limit, `maxLength`, already holds for every typed value, because the model caps each edit.
- Text.Upper: covers only the ASCII letters a-z. JavaScript's `toUpperCase` also maps other scripts and can change a string's length (for example "ß" becomes "SS").
- Text.Cap: lengths count Dafny characters. The browser counts UTF-16 code units, so names outside the Basic Multilingual Plane are measured differently.
- EntryPage.SetCode: cuts every edit to six characters. In a browser, a longer invite-link code can be shortened one deletion at a time, so an edit can deliver more than six characters. The model does not allow that.

=== FILE: entry_page.dfy ===
/** The entry page's session-establishment state machine: the page's local
    state as one immutable record, one pure transition per user or service
    event, and the render gating that decides which events the page offers
    in a given state.

    Each `async` handler is split in two: `Submit` runs the handler up to its
    `await` and emits the outbound `Call`; a later `Resolve` event carries
    that call together with the service's outcome and runs the rest. */
module EntryPage {
  import opened Wrappers
  import opened Text

  datatype Mode = Create | Join

  /** The session object the service returns; the page only stores it. */
  datatype Session = Session(id: string)

  /** The outbound call a submission makes to the session service. */
  datatype Call =
    | CreateCall(name: string, avatar: string)
    | JoinCall(name: string, avatar: string, code: string)

  /** How the awaited service call settles: it returns a session, throws an
      `Error` (which carries a message, possibly empty), or throws anything
      else. */
  datatype Outcome =
    | Success(session: Session)
    | ErrorWithMessage(message: string)
    | OtherFailure

  /** The page's local state plus the two effects it has on the world: the
      session it committed to the store and the route it navigated to.
      `nameEdited` is the browser's side of the name input: whether its value
      was last changed by the user's own typing since the form was shown
      (rather than written into a freshly mounted input by the page). */
  datatype State = State(
    mode: Option<Mode>,
    displayName: string,
    gameCode: string,
    avatarId: string,
    loading: bool,
    error: string,
    session: Option<Session>,
    navigatedTo: Option<string>,
    nameEdited: bool)

  /** Which submit handlers the page runs: the ones in the source, or the
      corrected ones. The corrected join handler sets `loading` the way the
      create handler does, and the corrected handlers refuse a name shorter
      than three characters whether or not the browser flagged it. Everything
      else is shared. */
  datatype Handlers = AsWritten | Corrected

  datatype Event =
    | InviteLink(join: Option<string>)
    | ChooseMode(choice: Mode)
    | Back
    | EditName(typed: string)
    | EditCode(typed: string)
    | PickAvatar(id: string)
    | Submit
    | Resolve(call: Call, outcome: Outcome)

  const AvatarIds: seq<string> := ["1", "2", "3", "4", "5", "6", "7", "8"]
  const DefaultAvatar: string := "1"
  const NameMinLength: nat := 3
  const NameMaxLength: nat := 12
  const CodeMaxLength: nat := 6
  const WaitingRoute: string := "/waiting"
  const CreateFallback: string := "Failed to create game"
  const JoinFallback: string := "Failed to join game"

  /** The state-wide invariant every reachable state keeps. */
  predicate Inv(st: State) {
    && IsUpper(st.gameCode)
    && st.avatarId in AvatarIds
    && |st.displayName| <= NameMaxLength
    && (st.session.Some? <==> st.navigatedTo.Some?)
    && (st.navigatedTo.Some? ==> st.navigatedTo.value == WaitingRoute)
    && (st.mode.None? ==> !st.nameEdited)
  }

  /** The form fields (name, code, avatar) agree. */
  predicate SameForm(a: State, b: State) {
    a.displayName == b.displayName && a.gameCode == b.gameCode && a.avatarId == b.avatarId
  }

  /** The submission bookkeeping (loading, error, session, route) agrees. */
  predicate SameStatus(a: State, b: State) {
    a.loading == b.loading && a.error == b.error && a.session == b.session && a.navigatedTo == b.navigatedTo
  }

  /** The state on mount: no mode, empty fields, the first avatar, nothing
      loading, no error, nothing committed. */
  function Initial(): (st: State)
    ensures Inv(st)
    ensures st.mode.None? && !st.loading && st.error == ""
    ensures st.displayName == "" && st.gameCode == "" && st.avatarId == AvatarIds[0]
    ensures st.session.None? && st.navigatedTo.None? && !st.nameEdited
  {
    State(None, "", "", DefaultAvatar, false, "", None, None, false)
  }

  /** The invite-link effect: a present, non-empty `join` parameter selects
      join mode and stores the upper-cased code, whatever its length; an
      absent or empty one changes nothing. */
  function ResolveInvite(st: State, join: Option<string>): (r: State)
    ensures join.None? || join.value == [] ==> r == st
    ensures join.Some? && join.value != [] ==>
      && r.mode == Some(Join)
      && r.gameCode == Upper(join.value)
      && |r.gameCode| == |join.value|
      && r.displayName == st.displayName && r.avatarId == st.avatarId
      && r.nameEdited == st.nameEdited
      && SameStatus(st, r)
    ensures Inv(st) ==> Inv(r)
  {
    if join.Some? && join.value != [] then
      st.(mode := Some(Join), gameCode := Upper(join.value))
    else
      st
  }

  /** One of the two mode buttons: sets the mode and nothing else. */
  function SelectMode(st: State, m: Mode): (r: State)
    ensures r.mode == Some(m)
    ensures SameForm(st, r) && SameStatus(st, r) && r.nameEdited == st.nameEdited
  {
    st.(mode := Some(m))
  }

  /** The back button: clears the mode and keeps every field of the page's
      state. The form is unmounted with its name input, so the browser no
      longer holds a typed name. */
  function GoBack(st: State): (r: State)
    ensures r.mode.None? && !r.nameEdited
    ensures SameForm(st, r) && SameStatus(st, r)
  {
    st.(mode := None, nameEdited := false)
  }

  /** A name edit: the input's `maxLength` caps what the edit delivers and
      the handler stores it verbatim; the value is now one the user typed. */
  function SetName(st: State, typed: string): (r: State)
    ensures |r.displayName| <= NameMaxLength
    ensures r.displayName <= typed
    ensures |typed| <= NameMaxLength ==> r.displayName == typed
    ensures |typed| > NameMaxLength ==> r.displayName == typed[..NameMaxLength]
    ensures r.mode == st.mode && r.gameCode == st.gameCode && r.avatarId == st.avatarId
    ensures SameStatus(st, r) && r.nameEdited
  {
    st.(displayName := Cap(typed, NameMaxLength), nameEdited := true)
  }

  /** A code edit: the input's `maxLength` caps what the edit delivers and
      the handler stores it upper-cased. */
  function SetCode(st: State, typed: string): (r: State)
    ensures |r.gameCode| <= CodeMaxLength && IsUpper(r.gameCode)
    ensures |typed| <= CodeMaxLength ==> r.gameCode == Upper(typed)
    ensures |typed| > CodeMaxLength ==> r.gameCode == Upper(typed[..CodeMaxLength])
    ensures r.mode == st.mode && r.displayName == st.displayName && r.avatarId == st.avatarId
    ensures SameStatus(st, r) && r.nameEdited == st.nameEdited
  {
    st.(gameCode := Upper(Cap(typed, CodeMaxLength)))
  }

  /** One of the eight avatar buttons: replaces the selection and touches no
      other field. */
  function SelectAvatar(st: State, id: string): (r: State)
    requires id in AvatarIds
    ensures r.avatarId == id && r.avatarId in AvatarIds
    ensures r.mode == st.mode && r.displayName == st.displayName && r.gameCode == st.gameCode
    ensures SameStatus(st, r) && r.nameEdited == st.nameEdited
  {
    st.(avatarId := id)
  }

  /** Whether the submit button, the form's constraint validation and the
      handlers let a submission through: a form is shown, nothing is loading,
      the name is not empty (`required`) and has at most 12 characters, and in
      join mode the code is not empty. The browser flags a value shorter than
      `minLength` only when the user typed it into the input now shown, so as
      written the three-character minimum binds only a typed name; the
      corrected handlers apply it to every name. The code's `maxLength` also
      flags only user-edited values, and edits are already capped, so it adds
      no condition here. */
  predicate SubmitEnabled(st: State, h: Handlers) {
    && st.mode.Some?
    && !st.loading
    && 0 < |st.displayName| <= NameMaxLength
    && (st.nameEdited || h == Corrected ==> NameMinLength <= |st.displayName|)
    && (st.mode == Some(Join) ==> st.gameCode != [])
  }

  /** The create handler up to its `await`: clears the error, sets loading
      and asks the service to create a game for this name and avatar. */
  function HandleCreate(st: State): (r: (State, Call))
    ensures r.1 == CreateCall(st.displayName, st.avatarId)
    ensures r.0.loading && r.0.error == ""
    ensures r.0.mode == st.mode && SameForm(st, r.0) && r.0.nameEdited == st.nameEdited
    ensures r.0.session == st.session && r.0.navigatedTo == st.navigatedTo
  {
    (st.(error := "", loading := true), CreateCall(st.displayName, st.avatarId))
  }

  /** The join handler up to its `await`: clears the error and asks the
      service to join the game with this code. As written it sets loading
      to false, so the submit button stays enabled while the call is out;
      the corrected handler sets it to true. */
  function HandleJoin(st: State, h: Handlers): (r: (State, Call))
    ensures r.1 == JoinCall(st.displayName, st.avatarId, st.gameCode)
    ensures r.0.error == ""
    ensures h == AsWritten ==> !r.0.loading
    ensures h == Corrected ==> r.0.loading
    ensures r.0.mode == st.mode && SameForm(st, r.0) && r.0.nameEdited == st.nameEdited
    ensures r.0.session == st.session && r.0.navigatedTo == st.navigatedTo
  {
    (st.(error := "", loading := h == Corrected), JoinCall(st.displayName, st.avatarId, st.gameCode))
  }

  /** The form's submit handler is chosen by the current mode. */
  function Dispatch(st: State, h: Handlers): (r: (State, Call))
    requires st.mode.Some?
    ensures st.mode == Some(Create) ==> r.1.CreateCall? && r.0.loading
    ensures st.mode == Some(Join) ==> r.1.JoinCall? && r.1.code == st.gameCode
    ensures st.mode == Some(Join) ==> r.0.loading == (h == Corrected)
    ensures r.1.name == st.displayName && r.1.avatar == st.avatarId
    ensures r.0.error == "" && r.0.mode == st.mode && SameForm(st, r.0)
    ensures r.0.nameEdited == st.nameEdited
    ensures r.0.session == st.session && r.0.navigatedTo == st.navigatedTo
  {
    if st.mode == Some(Create) then HandleCreate(st) else HandleJoin(st, h)
  }

  /** The message a failed call leaves on the page: the `Error`'s own
      message, even when empty, or the handler's fallback for anything else. */
  function FailureMessage(call: Call, outcome: Outcome): (msg: string)
    requires !outcome.Success?
    ensures outcome.ErrorWithMessage? ==> msg == outcome.message
    ensures outcome.OtherFailure? && call.CreateCall? ==> msg == CreateFallback
    ensures outcome.OtherFailure? && call.JoinCall? ==> msg == JoinFallback
    ensures outcome.OtherFailure? ==> msg != []
  {
    match outcome
    case ErrorWithMessage(m) => m
    case OtherFailure => if call.CreateCall? then CreateFallback else JoinFallback
  }

  /** The handler after its `await` settles: success commits the session and
      navigates to the waiting room; failure records a message and commits
      nothing; either way loading ends false and the form is kept. */
  function Settle(st: State, call: Call, outcome: Outcome): (r: State)
    ensures !r.loading
    ensures r.mode == st.mode && SameForm(st, r) && r.nameEdited == st.nameEdited
    ensures outcome.Success? ==>
      r.session == Some(outcome.session) && r.navigatedTo == Some(WaitingRoute) && r.error == st.error
    ensures !outcome.Success? ==>
      r.session == st.session && r.navigatedTo == st.navigatedTo && r.error == FailureMessage(call, outcome)
    ensures Inv(st) ==> Inv(r)
  {
    match outcome
    case Success(s) => st.(session := Some(s), navigatedTo := Some(WaitingRoute), loading := false)
    case _ => st.(error := FailureMessage(call, outcome), loading := false)
  }

  /** Which events the rendered page offers: the mode buttons only when no
      mode is chosen; back, name, avatar and submit only on a form; the code
      input only on the join form; only the eight listed avatars; submit only
      when enabled. The invite-link effect and a settling call can happen in
      any state. */
  predicate Available(st: State, ev: Event, h: Handlers) {
    match ev
    case InviteLink(_) => true
    case ChooseMode(_) => st.mode.None?
    case Back => st.mode.Some?
    case EditName(_) => st.mode.Some?
    case EditCode(_) => st.mode == Some(Join)
    case PickAvatar(id) => st.mode.Some? && id in AvatarIds
    case Submit => SubmitEnabled(st, h)
    case Resolve(_, _) => true
  }

  /** One event: the new state and the outbound call it makes, if any. An
      event the page does not offer changes nothing. */
  function Step(st: State, ev: Event, h: Handlers): (r: (State, Option<Call>))
    ensures !Available(st, ev, h) ==> r == (st, None)
    ensures r.1.Some? <==> ev == Submit && SubmitEnabled(st, h)
    ensures ev == Submit && SubmitEnabled(st, h) ==> (r.0, r.1.value) == Dispatch(st, h)
    ensures Inv(st) ==> Inv(r.0)
  {
    if !Available(st, ev, h) then (st, None)
    else
      match ev
      case InviteLink(join) => (ResolveInvite(st, join), None)
      case ChooseMode(m) => (SelectMode(st, m), None)
      case Back => (GoBack(st), None)
      case EditName(typed) => (SetName(st, typed), None)
      case EditCode(typed) => (SetCode(st, typed), None)
      case PickAvatar(id) => (SelectAvatar(st, id), None)
      case Submit => var d := Dispatch(st, h); (d.0, Some(d.1))
      case Resolve(call, outcome) => (Settle(st, call, outcome), None)
  }

  /** The calls one step makes, as a sequence. */
  function Emitted(c: Option<Call>): (cs: seq<Call>)
    ensures |cs| <= 1
    ensures c.Some? ==> cs == [c.value]
    ensures c.None? ==> cs == []
  {
    if c.Some? then [c.value] else []
  }

  /** How many `Submit` events a sequence holds. */
  function Submits(evs: seq<Event>): (n: nat)
    ensures n <= |evs|
  {
    if evs == [] then 0 else (if evs[0] == Submit then 1 else 0) + Submits(evs[1..])
  }

  /** A sequence of events from a state: the final state and the outbound
      calls in the order they were made. Every call comes from a submit, and
      the invariant holds throughout. */
  function Run(st: State, evs: seq<Event>, h: Handlers): (r: (State, seq<Call>))
    ensures |r.1| <= Submits(evs)
    ensures Inv(st) ==> Inv(r.0)
    decreases |evs|
  {
    if evs == [] then (st, [])
    else
      var first := Step(st, evs[0], h);
      var rest := Run(first.0, evs[1..], h);
      (rest.0, Emitted(first.1) + rest.1)
  }
}

=== FILE: entry_props.dfy ===
/** Properties of the entry page that relate several events: invariants kept
    along any run, re-running the invite-link effect, back-and-forth between
    modes, the submit gate, the commit discipline, the double-submission
    finding, and the scenarios the page is expected to handle. */
module EntryProps {
  import opened Wrappers
  import opened Text
  import opened EntryPage

  /** No service call settles during these events. */
  predicate NoResolve(evs: seq<Event>) {
    forall i :: 0 <= i < |evs| ==> !evs[i].Resolve?
  }

  /** No service call settles successfully during these events. */
  predicate NoSuccess(evs: seq<Event>) {
    forall i :: 0 <= i < |evs| ==> !(evs[i].Resolve? && evs[i].outcome.Success?)
  }

  // ---------------------------------------------------------------- runs

  /** Running two sequences one after the other ends where running their
      concatenation does. */
  lemma {:induction false} RunAppend(st: State, a: seq<Event>, b: seq<Event>, h: Handlers)
    ensures Run(st, a + b, h).0 == Run(Run(st, a, h).0, b, h).0
    decreases |a|
  {
    if a == [] {
      assert a + b == b;
    } else {
      assert (a + b)[0] == a[0];
      assert (a + b)[1..] == a[1..] + b;
      RunAppend(Step(st, a[0], h).0, a[1..], b, h);
    }
  }

  /** The calls of a concatenation are the calls of its first part followed
      by those of its second part. */
  lemma {:induction false} RunAppendCalls(st: State, a: seq<Event>, b: seq<Event>, h: Handlers)
    ensures Run(st, a + b, h).1 == Run(st, a, h).1 + Run(Run(st, a, h).0, b, h).1
    decreases |a|
  {
    if a == [] {
      assert a + b == b;
    } else {
      assert (a + b)[0] == a[0];
      assert (a + b)[1..] == a[1..] + b;
      RunAppendCalls(Step(st, a[0], h).0, a[1..], b, h);
    }
  }

  /** One event followed by the rest: the unfolding of `Run` on a sequence
      written out event by event. */
  lemma RunCons(st: State, e: Event, rest: seq<Event>, h: Handlers)
    ensures Run(st, [e] + rest, h).0 == Run(Step(st, e, h).0, rest, h).0
    ensures Run(st, [e] + rest, h).1 == Emitted(Step(st, e, h).1) + Run(Step(st, e, h).0, rest, h).1
  {
    assert ([e] + rest)[0] == e;
    assert ([e] + rest)[1..] == rest;
  }

  /** A step that makes no call contributes nothing to the calls of a run. */
  lemma QuietStep(st: State, e: Event, rest: seq<Event>, h: Handlers)
    requires Step(st, e, h).1.None?
    ensures Run(st, [e] + rest, h) == Run(Step(st, e, h).0, rest, h)
  {
    RunCons(st, e, rest, h);
    assert Emitted(Step(st, e, h).1) + Run(Step(st, e, h).0, rest, h).1
        == Run(Step(st, e, h).0, rest, h).1;
  }

  /** Splitting event sequences written out in full. */
  lemma Split3(a: Event, b: Event, c: Event)
    ensures [a, b, c] == [a, b] + [c] == [a] + [b, c]
  {
  }

  lemma Split4(a: Event, b: Event, c: Event, d: Event)
    ensures [a, b, c, d] == [a, b] + [c, d]
  {
  }

  lemma Split5(a: Event, b: Event, c: Event, d: Event, e: Event)
    ensures [a, b, c, d, e] == [a, b] + [c, d, e] == [a, b, c] + [d, e]
  {
  }

  /** From the mounted page, choosing a mode and typing a name that fits the
      input leads to the form holding that typed name and nothing else. */
  lemma NamedForm(m: Mode, name: string, rest: seq<Event>, h: Handlers)
    requires |name| <= NameMaxLength
    ensures Run(Initial(), [ChooseMode(m), EditName(name)] + rest, h)
         == Run(State(Some(m), name, "", DefaultAvatar, false, "", None, None, true), rest, h)
  {
    var s0 := Initial();
    var s1 := State(Some(m), "", "", DefaultAvatar, false, "", None, None, false);
    var s2 := State(Some(m), name, "", DefaultAvatar, false, "", None, None, true);
    assert Step(s0, ChooseMode(m), h) == (s1, None);
    assert Step(s1, EditName(name), h) == (s2, None);
    QuietStep(s1, EditName(name), rest, h);
    QuietStep(s0, ChooseMode(m), [EditName(name)] + rest, h);
    assert [ChooseMode(m), EditName(name)] + rest == [ChooseMode(m)] + ([EditName(name)] + rest);
  }

  /** Back followed by a mode choice: the state of choosing that mode
      directly, except that the new form's name input holds no typed value. */
  lemma BackAndChoose(st: State, m: Mode, rest: seq<Event>, h: Handlers)
    requires st.mode.Some?
    ensures Run(st, [Back, ChooseMode(m)] + rest, h)
         == Run(SelectMode(st, m).(nameEdited := false), rest, h)
  {
    var s1 := GoBack(st);
    assert Step(st, Back, h) == (s1, None);
    assert Step(s1, ChooseMode(m), h) == (SelectMode(st, m).(nameEdited := false), None);
    QuietStep(s1, ChooseMode(m), rest, h);
    QuietStep(st, Back, [ChooseMode(m)] + rest, h);
    assert [Back, ChooseMode(m)] + rest == [Back] + ([ChooseMode(m)] + rest);
  }

  /** An enabled submit on its own: the handler's state and its one call. */
  lemma SubmitOnly(st: State, h: Handlers)
    requires SubmitEnabled(st, h)
    ensures Run(st, [Submit], h) == (Dispatch(st, h).0, [Dispatch(st, h).1])
  {
    RunCons(st, Submit, [], h);
    assert [Dispatch(st, h).1] + [] == [Dispatch(st, h).1];
  }

  /** A submit the page does not let through changes nothing. */
  lemma SubmitRefused(st: State, h: Handlers)
    requires !SubmitEnabled(st, h)
    ensures Run(st, [Submit], h) == (st, [])
  {
    QuietStep(st, Submit, [], h);
  }

  /** The stored game code stays upper-case under any sequence of events. */
  lemma {:induction false} CodeStaysUpper(st: State, evs: seq<Event>, h: Handlers)
    requires IsUpper(st.gameCode)
    ensures IsUpper(Run(st, evs, h).0.gameCode)
    decreases |evs|
  {
    if evs != [] {
      var s1 := Step(st, evs[0], h).0;
      assert IsUpper(s1.gameCode);
      CodeStaysUpper(s1, evs[1..], h);
    }
  }

  /** The selected avatar stays one of the eight ids under any sequence of
      events. */
  lemma {:induction false} AvatarStaysListed(st: State, evs: seq<Event>, h: Handlers)
    requires st.avatarId in AvatarIds
    ensures Run(st, evs, h).0.avatarId in AvatarIds
    decreases |evs|
  {
    if evs != [] {
      var s1 := Step(st, evs[0], h).0;
      assert s1.avatarId in AvatarIds;
      AvatarStaysListed(s1, evs[1..], h);
    }
  }

  /** Every state reachable from the mounted page keeps the invariant. */
  lemma ReachableKeepsInv(evs: seq<Event>, h: Handlers)
    ensures Inv(Run(Initial(), evs, h).0)
    ensures IsUpper(Run(Initial(), evs, h).0.gameCode)
    ensures Run(Initial(), evs, h).0.avatarId in AvatarIds
  {
  }

  // ---------------------------------------------------------- invite link

  /** Re-running the invite-link effect with the same parameter changes
      nothing further. */
  lemma InviteIdempotent(st: State, join: Option<string>)
    ensures ResolveInvite(ResolveInvite(st, join), join) == ResolveInvite(st, join)
  {
    if join.Some? && join.value != [] {
      UpperIdempotent(join.value);
    }
  }

  /** An invite code is stored without any length check: a code longer than
      the input's six characters is upper-cased but not cut, and reaches the
      join call at its full length. */
  lemma LongInviteCodeIsSubmitted(code: string, name: string, h: Handlers)
    requires |code| > CodeMaxLength
    requires NameMinLength <= |name| <= NameMaxLength
    ensures var evs := [InviteLink(Some(code)), EditName(name), Submit];
            var calls := Run(Initial(), evs, h).1;
            && calls == [JoinCall(name, DefaultAvatar, Upper(code))]
            && |calls[0].code| == |code| > CodeMaxLength
  {
    var s0 := Initial();
    var s1 := State(Some(Join), "", Upper(code), DefaultAvatar, false, "", None, None, false);
    var s2 := State(Some(Join), name, Upper(code), DefaultAvatar, false, "", None, None, true);
    assert Step(s0, InviteLink(Some(code)), h) == (s1, None);
    assert Step(s1, EditName(name), h) == (s2, None);
    Split3(InviteLink(Some(code)), EditName(name), Submit);
    QuietStep(s0, InviteLink(Some(code)), [EditName(name), Submit], h);
    QuietStep(s1, EditName(name), [Submit], h);
    assert SubmitEnabled(s2, h);
    SubmitOnly(s2, h);
  }

  // ------------------------------------------------------------ modes

  /** Going back and choosing a mode again lands where choosing that mode
      directly would: the name, code, avatar and status survive the detour.
      Only the browser's record that the name was typed is lost, because the
      form shown afterwards is a new one. */
  lemma BackThenChooseRestores(st: State, m: Mode, h: Handlers)
    requires st.mode.Some?
    ensures Run(st, [Back, ChooseMode(m)], h).0 == SelectMode(st, m).(nameEdited := false)
    ensures Run(st, [Back, ChooseMode(st.mode.value)], h).0 == st.(nameEdited := false)
  {
    BackAndChoose(st, m, [], h);
    BackAndChoose(st, st.mode.value, [], h);
    assert [Back, ChooseMode(m)] + [] == [Back, ChooseMode(m)];
    assert [Back, ChooseMode(st.mode.value)] + [] == [Back, ChooseMode(st.mode.value)];
  }

  // ------------------------------------------------------------ avatars

  /** The eight avatar ids are distinct, so exactly one button shows as
      selected: the one at the index of the stored id. */
  lemma ExactlyOneAvatarSelected(st: State)
    requires st.avatarId in AvatarIds
    ensures exists k :: 0 <= k < |AvatarIds| && AvatarIds[k] == st.avatarId
    ensures forall j, k ::
              (0 <= j < |AvatarIds| && 0 <= k < |AvatarIds| &&
               AvatarIds[j] == st.avatarId && AvatarIds[k] == st.avatarId) ==> j == k
  {
    forall j, k | 0 <= j < |AvatarIds| && 0 <= k < |AvatarIds| && AvatarIds[j] == AvatarIds[k]
      ensures j == k
    {
      assert AvatarIds[j][0] == AvatarIds[k][0];
      assert AvatarIds[j][0] as int - '1' as int == j;
      assert AvatarIds[k][0] as int - '1' as int == k;
    }
  }

  // -------------------------------------------------------- submit gate

  /** A submission goes out exactly when a form is shown, nothing is
      loading, the name is not empty and has at most 12 characters, a typed
      name (or, with the corrected handlers, any name) has at least 3, and in
      join mode the code is not empty; otherwise the submit changes nothing.
      With the corrected handlers this is the intended gate: 3 to 12
      characters, whatever the name's history. */
  lemma SubmitGate(st: State, h: Handlers)
    ensures Step(st, Submit, h).1.Some? <==>
      && st.mode.Some?
      && !st.loading
      && 1 <= |st.displayName| <= 12
      && (st.nameEdited || h == Corrected ==> 3 <= |st.displayName|)
      && (st.mode == Some(Join) ==> |st.gameCode| > 0)
    ensures h == Corrected ==>
      (Step(st, Submit, h).1.Some? <==>
        && st.mode.Some?
        && !st.loading
        && 3 <= |st.displayName| <= 12
        && (st.mode == Some(Join) ==> |st.gameCode| > 0))
    ensures Step(st, Submit, h).1.None? ==> Step(st, Submit, h).0 == st
  {
  }

  /** With the corrected handlers, a name that stays too short or too long
      never lets a call out, however often the user presses submit and
      whatever else happens meanwhile that leaves the name alone. */
  lemma {:induction false} BadNameNeverCalls(st: State, evs: seq<Event>)
    requires |st.displayName| < NameMinLength || |st.displayName| > NameMaxLength
    requires forall i :: 0 <= i < |evs| ==> !evs[i].EditName?
    ensures Run(st, evs, Corrected).1 == []
    ensures Run(st, evs, Corrected).0.displayName == st.displayName
    decreases |evs|
  {
    if evs != [] {
      var s1 := Step(st, evs[0], Corrected).0;
      assert s1.displayName == st.displayName;
      BadNameNeverCalls(s1, evs[1..]);
    }
  }

  /** Going back and choosing the mode again after typing a name leaves the
      name in place but no longer marked as typed. */
  lemma Remount(name: string, h: Handlers)
    requires |name| <= NameMaxLength
    ensures Run(Initial(), [ChooseMode(Create), EditName(name), Back, ChooseMode(Create), Submit], h)
         == Run(State(Some(Create), name, "", DefaultAvatar, false, "", None, None, false), [Submit], h)
  {
    var s2 := State(Some(Create), name, "", DefaultAvatar, false, "", None, None, true);
    Split5(ChooseMode(Create), EditName(name), Back, ChooseMode(Create), Submit);
    NamedForm(Create, name, [Back, ChooseMode(Create), Submit], h);
    Split3(Back, ChooseMode(Create), Submit);
    BackAndChoose(s2, Create, [Submit], h);
  }

  /** A submit right after typing a name the browser flags as too short
      makes no call. */
  lemma TypedShortNameHeld(name: string, h: Handlers)
    requires 0 < |name| < NameMinLength
    ensures Run(Initial(), [ChooseMode(Create), EditName(name), Submit], h).1 == []
  {
    var s2 := State(Some(Create), name, "", DefaultAvatar, false, "", None, None, true);
    Split3(ChooseMode(Create), EditName(name), Submit);
    NamedForm(Create, name, [Submit], h);
    SubmitRefused(s2, h);
  }

  /** As written, a one- or two-character name that the user typed is held
      back by the browser, but after going back and choosing the mode again
      the new form's name input was filled in by the page, not typed, and
      the name is submitted. The corrected handlers make no call. */
  lemma RemountedShortNameSubmitted(name: string)
    requires 0 < |name| < NameMinLength
    ensures var evs := [ChooseMode(Create), EditName(name), Submit];
            Run(Initial(), evs, AsWritten).1 == []
    ensures var evs := [ChooseMode(Create), EditName(name), Back, ChooseMode(Create), Submit];
            && Run(Initial(), evs, AsWritten).1 == [CreateCall(name, DefaultAvatar)]
            && Run(Initial(), evs, Corrected).1 == []
  {
    var s4 := State(Some(Create), name, "", DefaultAvatar, false, "", None, None, false);
    TypedShortNameHeld(name, AsWritten);
    Remount(name, AsWritten);
    Remount(name, Corrected);
    SubmitOnly(s4, AsWritten);
    SubmitRefused(s4, Corrected);
  }

  // ------------------------------------------------------ commit discipline

  /** Without a successful settlement nothing is committed and the page does
      not navigate. */
  lemma {:induction false} NoCommitWithoutSuccess(st: State, evs: seq<Event>, h: Handlers)
    requires NoSuccess(evs)
    ensures Run(st, evs, h).0.session == st.session
    ensures Run(st, evs, h).0.navigatedTo == st.navigatedTo
    decreases |evs|
  {
    if evs != [] {
      var s1 := Step(st, evs[0], h).0;
      assert !(evs[0].Resolve? && evs[0].outcome.Success?);
      assert s1.session == st.session && s1.navigatedTo == st.navigatedTo;
      assert NoSuccess(evs[1..]) by {
        forall i | 0 <= i < |evs[1..]|
          ensures !(evs[1..][i].Resolve? && evs[1..][i].outcome.Success?)
        {
          assert evs[1..][i] == evs[i + 1];
        }
      }
      NoCommitWithoutSuccess(s1, evs[1..], h);
    }
  }

  /** Whatever came before, the page is not loading once a call settles. */
  lemma IdleAfterSettle(st: State, evs: seq<Event>, call: Call, outcome: Outcome, h: Handlers)
    ensures !Run(st, evs + [Resolve(call, outcome)], h).0.loading
  {
    RunAppend(st, evs, [Resolve(call, outcome)], h);
  }

  // ---------------------------------------------- double join submission

  /** While loading, nothing short of a settlement lets a call out or clears
      the flag. */
  lemma {:induction false} LoadingBlocksCalls(st: State, evs: seq<Event>, h: Handlers)
    requires st.loading
    requires NoResolve(evs)
    ensures Run(st, evs, h).1 == []
    ensures Run(st, evs, h).0.loading
    decreases |evs|
  {
    if evs != [] {
      assert !evs[0].Resolve?;
      var s1 := Step(st, evs[0], h).0;
      assert s1.loading;
      assert NoResolve(evs[1..]) by {
        forall i | 0 <= i < |evs[1..]|
          ensures !evs[1..][i].Resolve?
        {
          assert evs[1..][i] == evs[i + 1];
        }
      }
      LoadingBlocksCalls(s1, evs[1..], h);
    }
  }

  /** As written, a join submission leaves loading false and the submit
      button enabled, so a second press sends a second, identical join call
      before the first settles. */
  lemma AsWrittenJoinSubmitsTwice(st: State)
    requires SubmitEnabled(st, AsWritten) && st.mode == Some(Join)
    ensures !Step(st, Submit, AsWritten).0.loading
    ensures SubmitEnabled(Step(st, Submit, AsWritten).0, AsWritten)
    ensures var c := JoinCall(st.displayName, st.avatarId, st.gameCode);
            Run(st, [Submit, Submit], AsWritten).1 == [c, c]
  {
    var s1 := Step(st, Submit, AsWritten).0;
    assert SubmitEnabled(s1, AsWritten);
    RunCons(s1, Submit, [], AsWritten);
    RunCons(st, Submit, [Submit], AsWritten);
  }

  /** The create handler, by contrast, blocks the second press: one call. */
  lemma CreateSubmitsOnce(st: State, h: Handlers)
    requires SubmitEnabled(st, h) && st.mode == Some(Create)
    ensures Run(st, [Submit, Submit], h).1 == [CreateCall(st.displayName, st.avatarId)]
  {
    var s1 := Step(st, Submit, h).0;
    assert s1.loading;
    RunCons(s1, Submit, [], h);
    RunCons(st, Submit, [Submit], h);
  }

  /** With the corrected join handler, at most one call goes out between
      settlements, whatever the user does in the meantime. */
  lemma {:induction false} CorrectedSubmitsAtMostOnce(st: State, evs: seq<Event>)
    requires NoResolve(evs)
    ensures |Run(st, evs, Corrected).1| <= 1
    ensures st.loading ==> Run(st, evs, Corrected).1 == []
    decreases |evs|
  {
    if st.loading {
      LoadingBlocksCalls(st, evs, Corrected);
    } else if evs != [] {
      var s1, c := Step(st, evs[0], Corrected).0, Step(st, evs[0], Corrected).1;
      assert NoResolve(evs[1..]) by {
        forall i | 0 <= i < |evs[1..]|
          ensures !evs[1..][i].Resolve?
        {
          assert evs[1..][i] == evs[i + 1];
        }
      }
      if c.Some? {
        assert s1.loading;
        LoadingBlocksCalls(s1, evs[1..], Corrected);
      } else {
        CorrectedSubmitsAtMostOnce(s1, evs[1..]);
      }
    }
  }

  // ------------------------------------------------------------ scenarios

  /** An invite link `?join=abc123` opens the join form with code ABC123. */
  lemma InviteScenario(h: Handlers)
    ensures Step(Initial(), InviteLink(Some("abc123")), h).0.mode == Some(Join)
    ensures Step(Initial(), InviteLink(Some("abc123")), h).0.gameCode == "ABC123"
  {
    var u := Upper("abc123");
    assert u[0] == 'A' && u[1] == 'B' && u[2] == 'C';
    assert u[3] == '1' && u[4] == '2' && u[5] == '3';
  }

  /** An enabled submit followed by the settlement of its call: one call,
      and the state the settlement leaves. */
  lemma SubmitThenSettle(st: State, outcome: Outcome, h: Handlers)
    requires SubmitEnabled(st, h)
    ensures var d := Dispatch(st, h);
            Run(st, [Submit, Resolve(d.1, outcome)], h) == (Settle(d.0, d.1, outcome), [d.1])
  {
    var d := Dispatch(st, h);
    var settle := Resolve(d.1, outcome);
    var s2 := Settle(d.0, d.1, outcome);
    assert Step(st, Submit, h) == (d.0, Some(d.1));
    assert Step(d.0, settle, h) == (s2, None);
    assert Run(s2, [], h) == (s2, []);
    RunCons(d.0, settle, [], h);
    assert Run(d.0, [settle], h) == (s2, []);
    RunCons(st, Submit, [settle], h);
    assert [Submit, settle] == [Submit] + [settle];
    assert Run(st, [Submit, settle], h).0 == s2;
    assert Run(st, [Submit, settle], h).1 == [d.1] + [];
    assert [d.1] + [] == [d.1];
  }

  /** From the mounted page, choosing create, typing a name that fits the
      input and picking a listed avatar leads to the form holding them. */
  lemma AvatarPicked(name: string, avatar: string, rest: seq<Event>, h: Handlers)
    requires |name| <= NameMaxLength
    requires avatar in AvatarIds
    ensures Run(Initial(), [ChooseMode(Create), EditName(name), PickAvatar(avatar)] + rest, h)
         == Run(State(Some(Create), name, "", avatar, false, "", None, None, true), rest, h)
  {
    var s2 := State(Some(Create), name, "", DefaultAvatar, false, "", None, None, true);
    var s3 := State(Some(Create), name, "", avatar, false, "", None, None, true);
    NamedForm(Create, name, [PickAvatar(avatar)] + rest, h);
    assert [ChooseMode(Create), EditName(name), PickAvatar(avatar)] + rest
        == [ChooseMode(Create), EditName(name)] + ([PickAvatar(avatar)] + rest);
    assert Step(s2, PickAvatar(avatar), h) == (s3, None);
    QuietStep(s2, PickAvatar(avatar), rest, h);
  }

  /** A player creates a game with a valid name and one of the avatars and
      the service returns a session: exactly one create call goes out, the
      session is committed, the page navigates to the waiting room, and
      nothing is loading or shown as an error. */
  lemma CreateSuccessScenario(name: string, avatar: string, session: Session, h: Handlers)
    requires NameMinLength <= |name| <= NameMaxLength
    requires avatar in AvatarIds
    ensures var call := CreateCall(name, avatar);
            var evs := [ChooseMode(Create), EditName(name), PickAvatar(avatar), Submit,
                        Resolve(call, Success(session))];
            var r := Run(Initial(), evs, h);
            && r.1 == [call]
            && r.0.session == Some(session)
            && r.0.navigatedTo == Some(WaitingRoute)
            && !r.0.loading && r.0.error == ""
  {
    var call := CreateCall(name, avatar);
    var ok := Resolve(call, Success(session));
    var s3 := State(Some(Create), name, "", avatar, false, "", None, None, true);
    AvatarPicked(name, avatar, [Submit, ok], h);
    Split5(ChooseMode(Create), EditName(name), PickAvatar(avatar), Submit, ok);
    assert SubmitEnabled(s3, h);
    SubmitThenSettle(s3, Success(session), h);
  }

  /** From the mounted page, choosing join, typing a name and typing a code
      that fit their inputs leads to the join form holding them. */
  lemma JoinFormFilled(name: string, code: string, rest: seq<Event>, h: Handlers)
    requires |name| <= NameMaxLength
    requires |code| <= CodeMaxLength && IsUpper(code)
    ensures Run(Initial(), [ChooseMode(Join), EditName(name), EditCode(code)] + rest, h)
         == Run(State(Some(Join), name, code, DefaultAvatar, false, "", None, None, true), rest, h)
  {
    var s2 := State(Some(Join), name, "", DefaultAvatar, false, "", None, None, true);
    var s3 := State(Some(Join), name, code, DefaultAvatar, false, "", None, None, true);
    NamedForm(Join, name, [EditCode(code)] + rest, h);
    assert [ChooseMode(Join), EditName(name), EditCode(code)] + rest
        == [ChooseMode(Join), EditName(name)] + ([EditCode(code)] + rest);
    UpperFixedPoint(code);
    assert SetCode(s2, code) == s3;
    assert Step(s2, EditCode(code), h) == (s3, None);
    QuietStep(s2, EditCode(code), rest, h);
  }

  /** A player's join with any code the join form accepts is rejected with a message:
      one join call goes out, the message is shown verbatim, nothing is
      loading and nothing is committed. */
  lemma JoinRejectedScenario(name: string, code: string, message: string, h: Handlers)
    requires NameMinLength <= |name| <= NameMaxLength
    requires 0 < |code| <= CodeMaxLength && IsUpper(code)
    ensures var call := JoinCall(name, DefaultAvatar, code);
            var evs := [ChooseMode(Join), EditName(name), EditCode(code), Submit,
                        Resolve(call, ErrorWithMessage(message))];
            var r := Run(Initial(), evs, h);
            && r.1 == [call]
            && r.0.error == message
            && !r.0.loading && r.0.session.None? && r.0.navigatedTo.None?
  {
    var call := JoinCall(name, DefaultAvatar, code);
    var fail := Resolve(call, ErrorWithMessage(message));
    var s3 := State(Some(Join), name, code, DefaultAvatar, false, "", None, None, true);
    JoinFormFilled(name, code, [Submit, fail], h);
    Split5(ChooseMode(Join), EditName(name), EditCode(code), Submit, fail);
    assert SubmitEnabled(s3, h);
    SubmitThenSettle(s3, ErrorWithMessage(message), h);
  }

  /** A failure that is not an `Error` shows the fallback of the handler that
      made the call, never an empty message. */
  lemma FallbackScenario(st: State, call: Call)
    ensures var r := Settle(st, call, OtherFailure);
            && r.error == (if call.CreateCall? then CreateFallback else JoinFallback)
            && r.error != []
  {
  }

  /** A create submission followed by back leaves the page loading with no
      mode chosen: the mode buttons are shown while a create call is still
      out. */
  lemma LoadingWithoutModeReachable(name: string, h: Handlers)
    requires NameMinLength <= |name| <= NameMaxLength
    ensures var r := Run(Initial(), [ChooseMode(Create), EditName(name), Submit, Back], h).0;
            r.loading && r.mode.None?
  {
    var s2 := State(Some(Create), name, "", DefaultAvatar, false, "", None, None, true);
    var s3 := State(Some(Create), name, "", DefaultAvatar, true, "", None, None, true);
    NamedForm(Create, name, [Submit, Back], h);
    Split4(ChooseMode(Create), EditName(name), Submit, Back);
    assert Step(s2, Submit, h).0 == s3;
    RunCons(s3, Back, [], h);
    RunCons(s2, Submit, [Back], h);
  }
}

=== FILE: text.dfy ===
/** String helpers the entry page relies on: upper-casing of game codes
    (modelled on ASCII letters) and the browser's `maxLength` cap on what an
    edit can deliver into an input. */
module Text {

  predicate IsLowerAscii(c: char) {
    'a' <= c <= 'z'
  }

  /** Upper-cases one ASCII letter and leaves every other character alone. */
  function UpperChar(c: char): (u: char)
    ensures !IsLowerAscii(u)
    ensures IsLowerAscii(c) ==> u as int == c as int - 32
    ensures !IsLowerAscii(c) ==> u == c
  {
    if IsLowerAscii(c) then (c as int - 32) as char else c
  }

  /** A string with no lower-case letter left in it. */
  predicate IsUpper(s: string) {
    forall i :: 0 <= i < |s| ==> !IsLowerAscii(s[i])
  }

  /** Upper-casing, character by character; the result keeps the length of
      the input and holds no lower-case letter. */
  function Upper(s: string): (r: string)
    ensures |r| == |s|
    ensures forall i :: 0 <= i < |s| ==> r[i] == UpperChar(s[i])
    ensures IsUpper(r)
  {
    if s == [] then [] else [UpperChar(s[0])] + Upper(s[1..])
  }

  /** Upper-casing leaves a string unchanged exactly when it is already
      upper-case. */
  lemma UpperFixedPoint(s: string)
    ensures Upper(s) == s <==> IsUpper(s)
  {
    if IsUpper(s) {
      forall i | 0 <= i < |s|
        ensures Upper(s)[i] == s[i]
      {
        assert !IsLowerAscii(s[i]);
      }
    }
  }

  /** Upper-casing twice is upper-casing once. */
  lemma UpperIdempotent(s: string)
    ensures Upper(Upper(s)) == Upper(s)
  {
    UpperFixedPoint(Upper(s));
  }

  /** The value an input with `maxLength = n` can hold after an edit: the
      delivered text, cut to its first `n` characters. */
  function Cap(s: string, n: nat): (r: string)
    ensures |r| <= n
    ensures r <= s
    ensures |s| <= n ==> r == s
    ensures |s| > n ==> |r| == n
  {
    if |s| <= n then s else s[..n]
  }

  /** Capping and upper-casing commute, so it does not matter whether the
      browser cuts the text before or after the handler upper-cases it. */
  lemma {:induction false} CapUpperCommute(s: string, n: nat)
    ensures Cap(Upper(s), n) == Upper(Cap(s, n))
  {
    var a, b := Cap(Upper(s), n), Upper(Cap(s, n));
    assert |a| == |b|;
    forall i | 0 <= i < |a|
      ensures a[i] == b[i]
    {
      assert a[i] == Upper(s)[i] == UpperChar(s[i]);
      assert b[i] == UpperChar(Cap(s, n)[i]);
    }
  }
}

=== FILE: wrappers.dfy ===
/** Optional values, used for the nullable fields of the entry page
    (the selected mode, the committed session, the navigation target)
    and for the nullable `join` query parameter. */
module Wrappers {

  datatype Option<+T> = None | Some(value: T)
}
